=== FILE: README.md ===
# marjoram in Dafny

A model of the functional value types of the marjoram C++ library:

- `Maybe<A>` (include/marjoram/maybe.hpp), an optional value: `Nothing` or
  `Just(a)`, with `isJust`, `isNothing`, `get`, `getOrElse` and the monadic
  `flatMap` (module `MaybeMonad`, file `maybe.dfy`);
- `Either<A, B>` (include/marjoram/either.hpp), a disjoint union of a left
  `A` or a right `B`, a monad over its right value, with `isLeft`,
  `isRight`, `fold`, `flatMap`, `mirror` and `toMaybe` (module
  `EitherMonad`, file `either.dfy`);
- the monad helpers of include/marjoram/monad.hpp: `map` (derived from
  `flatMap` and the unit constructor), `map2` and `sequence` (module
  `Monad`, file `monad.dfy`);
- `Lazy<A>` (include/marjoram/lazy.hpp), a value computed on first use and
  then remembered, with its constructors, value assignment, `isEvaluated`,
  `get`, `map`, `flatMap` and `Flatten` (module `LazyEval`, file
  `lazy.dfy`).

`Maybe` and `Either` are datatypes; their operations are functions, and
what the library promises about them (the short-circuit of `flatMap`, the
monad and functor laws, `mirror` being an involution, `fold` being the
complete eliminator) are lemmas. The C++ const and non-const overloads of
`flatMap`, `fold`, `get`, `getOrElse` and `map` compute the same values and
are one member each here: the non-const `flatMap` and `map` move the payload
instead of copying it, and the non-const `get`, `getOrElse` and `fold`
return or pass a mutable reference, through which the caller can change the
stored value (see "Left out").

The C++ `Monad` base class is generic over the monad; Dafny has no
higher-kinded types, so `map` is given for `Maybe` (`MaybeMap`) and for
`Either` (`EitherMap`), and `map2` and `sequence` for `Maybe`. `sequence` is
a method with a loop, as in the source: it is present iff every element is,
and, because every value is added with `push_front`, the list holds the
values in reverse container order.

`Lazy` is a class whose field `impl` is the storage
`Either<() -> A, A>` of the source (a pending computation on the left, the
computed value on the right). `Get` overwrites a pending computation with
its result; a ghost counter `calls` records how often the computation has
been called by this object, and the class invariant `Valid` states that a
pending computation has not been called yet and that a Lazy's own `Get`
calls its installed computation at most once.
`Eventual()` is the value `Get` returns, computed or not. A Lazy that is
itself used as a value (the result of the function passed to `flatMap`, the
inner Lazy of `Flatten`) is copied in the source and is represented here by
its storage value.

Where the Either code builds a value with the side-inferring constructor
(`Either<A, C>(asLeft())` in `flatMap`, `Either<B, A>(...)` in `mirror`,
`Either<A, C>(f(b))` in `map`), the constructor only compiles when exactly
one side can be built from the argument, which is the side of the argument's
own type; the model writes that side out.

A default-constructed Maybe (`Maybe<int> notFive;` in test/test_maybe.cxx,
the ten elements of `std::vector<Maybe<int>> Mi(10)` in
test/test_monad.cxx) is empty: the forwarding constructor with no argument
value-initialises the backing optional, which leaves it empty (`FromArgs`).
The variadic `Just<A>(args...)` forwards to that constructor, so `Just<A>()`
is empty too, although it is documented to contain an `A`; see "Findings".

`getOrElse` is documented in include/marjoram/maybe.hpp:121-133 as undefined
on an empty Maybe, but the code returns the default there; the model follows
the code and is total.

## Model

| member | source | states |
|---|---|---|
| `MaybeMonad.Maybe.IsJust` | include/marjoram/maybe.hpp:95-99 | true exactly when the Maybe is not `Nothing` |
| `MaybeMonad.Maybe.IsNothing` | include/marjoram/maybe.hpp:101-105 | true exactly when the Maybe is `Nothing` |
| `MaybeMonad.Maybe.Get` | include/marjoram/maybe.hpp:107-119 | only callable on a Maybe that holds a value, and returns the value it holds |
| `MaybeMonad.Maybe.GetOrElse` | include/marjoram/maybe.hpp:121-133 | total; the result is the held value, or the default exactly when the Maybe is empty |
| `MaybeMonad.Maybe.FlatMap` | include/marjoram/maybe.hpp:70-93 | binding an empty Maybe gives Nothing; binding a present one gives `f` of its value, unwrapped once |
| `MaybeMonad.FromArgs` | include/marjoram/maybe.hpp:55-56 | the forwarding constructor with no argument builds an empty Maybe (`Maybe<int> m;`), and with one `A` a Maybe holding it |
| `MaybeMonad.JustFromArgs` | include/marjoram/maybe.hpp:155-157 | the variadic `Just<A>(args...)` as written is empty exactly when given no argument, being the forwarding constructor |
| `MaybeMonad.JustFromNoArgsIsEmpty` | include/marjoram/maybe.hpp:151-157 | `Just<int>()` as written holds no `int`, against its documentation |
| `MaybeMonad.JustFromArgsIntended` | include/marjoram/maybe.hpp:151-154 | the variadic `Just` as documented always holds an `A`: the argument, or the value-initialised `A()` when there is none |
| `MaybeMonad.JustHoldsValue` | include/marjoram/maybe.hpp:144-149 | `Just(a)` is present, not empty, and `get` returns `a` |
| `MaybeMonad.NothingIsEmpty` | include/marjoram/maybe.hpp:42-47 | the `Nothing` token gives an empty Maybe of any type |
| `MaybeMonad.JustXorNothing` | include/marjoram/maybe.hpp:95-105 | `isNothing` is the negation of `isJust` |
| `MaybeMonad.GetOrElseDefault` | include/marjoram/maybe.hpp:121-133 | `getOrElse(d)` is `d` on an empty Maybe and `get()` on a present one |
| `MaybeMonad.FlatMapNothing` | include/marjoram/maybe.hpp:88-93 | `flatMap` on Nothing is Nothing whatever the function |
| `MaybeMonad.FlatMapLeftIdentity` | include/marjoram/maybe.hpp:58-75 | `Just(a).flatMap(f)` is `f(a)`, not wrapped twice |
| `MaybeMonad.FlatMapRightIdentity` | include/marjoram/maybe.hpp:29-37 | binding with `Just` gives back the same Maybe |
| `MaybeMonad.FlatMapAssociative` | include/marjoram/maybe.hpp:29-37 | `m.flatMap(f).flatMap(g)` equals `m.flatMap(x => f(x).flatMap(g))` |
| `MaybeMonad.FlatMapChainShortCircuits` | include/marjoram/maybe.hpp:88-93 | for a chain of binds all of type `A -> Maybe<A>`: once the chain is empty after some prefix, every later bind keeps it empty (a type-changing chain follows bind by bind from `FlatMapNothing`) |
| `MaybeMonad.ChainedSquares` | test/test_maybe.cxx:8-19 | `Just(5).flatMap(sq)` holds 25 and `Just(5).flatMap(sq).flatMap(sq)` holds 625 |
| `MaybeMonad.GetOrElseExample` | test/test_maybe.cxx:34-48 | `Just(5).getOrElse(-42)` is 5 and `Nothing.getOrElse(-42)` is -42 |
| `EitherMonad.Either.IsLeft` | include/marjoram/either.hpp:98-102 | true exactly for a left value, and never together with `isRight` |
| `EitherMonad.Either.IsRight` | include/marjoram/either.hpp:104-108 | true exactly for a right value |
| `EitherMonad.Either.AsLeft` | include/marjoram/either.hpp:110 | only callable on a left value, and returns the stored `A` |
| `EitherMonad.Either.AsRight` | include/marjoram/either.hpp:111 | only callable on a right value, and returns the stored `B` |
| `EitherMonad.Either.Fold` | include/marjoram/either.hpp:113-150 | `fa` of the stored `A` for a left value, `fb` of the stored `B` for a right value |
| `EitherMonad.Either.FlatMap` | include/marjoram/either.hpp:152-184 | binding a left value gives a left value with the same `A`; binding a right `b` gives `fb(b)` |
| `EitherMonad.Either.Mirror` | include/marjoram/either.hpp:186-195 | the result is left iff the original is right, and holds the same value |
| `EitherMonad.Either.ToMaybe` | include/marjoram/either.hpp:197-206 | present iff the value is right, and then holds `b` |
| `EitherMonad.SidesExclusive` | include/marjoram/either.hpp:84-108 | exactly one of `isLeft`/`isRight` holds; a left-tagged value is left and holds its `A`, a right-tagged one is right and holds its `B` |
| `EitherMonad.FoldAppliesStoredSide` | include/marjoram/either.hpp:121-150 | `fold(fa, fb)` is `fa(a)` on a left value and `fb(b)` on a right value |
| `EitherMonad.FoldWithConstructors` | include/marjoram/either.hpp:113-130 | folding with the two tag constructors rebuilds the same Either |
| `EitherMonad.FlatMapRight` | include/marjoram/either.hpp:162-166 | `flatMap(fb)` on a right `b` is `fb(b)` |
| `EitherMonad.FlatMapLeft` | include/marjoram/either.hpp:178-184 | `flatMap` on a left value is a left value holding the same `A` |
| `EitherMonad.FlatMapRightIdentity` | include/marjoram/either.hpp:23-37 | binding with the right constructor gives back the same Either |
| `EitherMonad.FlatMapAssociative` | include/marjoram/either.hpp:23-37 | chained binds over the right value compose |
| `EitherMonad.MirrorInvolution` | include/marjoram/either.hpp:186-195 | `mirror(mirror(e)) == e` |
| `EitherMonad.FoldMirror` | include/marjoram/either.hpp:186-195 | folding the mirror with swapped functions equals folding the original |
| `EitherMonad.ToMaybeIsFold` | include/marjoram/either.hpp:197-206 | `toMaybe` equals `fold(_ => Nothing, Just)` |
| `Monad.MaybeMap` | include/marjoram/monad.hpp:38-57 | `map(f)` is present iff the input is, and then holds `f(a)` |
| `Monad.EitherMap` | include/marjoram/either.hpp:38-40 | `map(f)` keeps the side; on a right `b` it holds `f(b)`, on a left value the same `A` |
| `Monad.MaybeMapIdentity` | include/marjoram/monad.hpp:27-41 | mapping the identity gives back the same Maybe |
| `Monad.MaybeMapCompose` | include/marjoram/monad.hpp:27-41 | `m.map(f).map(g)` equals `m.map(g after f)` |
| `Monad.EitherMapIdentity` | include/marjoram/monad.hpp:43-57 | mapping the identity gives back the same Either |
| `Monad.EitherMapCompose` | include/marjoram/monad.hpp:43-57 | `e.map(f).map(g)` equals `e.map(g after f)` |
| `Monad.ChainedSquareMaps` | test/test_maybe.cxx:21-32 | `Just(5).map(sq)` holds 25 and `Just(5).map(sq).map(sq)` holds 625 |
| `Monad.Map2` | include/marjoram/monad.hpp:73-83 | present iff both inputs are, and then holds `f(a, b)` |
| `Monad.PushFront` | include/marjoram/monad.hpp:94-97 | the new list is one longer, starts with the added value and continues with the old list |
| `Monad.Sequence` | include/marjoram/monad.hpp:85-100 | present iff every element is present; then the list has the container's length and holds the values in reverse order |
| `LazyEval.Lazy.FromThunk` | include/marjoram/lazy.hpp:16-20 | the new Lazy is not evaluated, its computation has not been called, and its value will be `f()` |
| `LazyEval.Lazy.FromValue` | include/marjoram/lazy.hpp:21 | the new Lazy is evaluated and holds `a` |
| `LazyEval.Lazy.IsEvaluated` | include/marjoram/lazy.hpp:38-41 | true exactly when the storage already holds the value `get` returns |
| `LazyEval.Force` | include/marjoram/lazy.hpp:43-52 | the value `get` returns: the pending computation's result, or the stored value |
| `LazyEval.Lazy.Assign` | include/marjoram/lazy.hpp:26-36 | afterwards the Lazy is evaluated with value `a`; a pending computation is dropped without being called |
| `LazyEval.Lazy.Get` | include/marjoram/lazy.hpp:43-63 | returns the value the Lazy stands for, stores it, and leaves it evaluated; an evaluated Lazy is left unchanged; a pending computation is called exactly once |
| `LazyEval.Lazy.Map` | include/marjoram/lazy.hpp:65-104 | the result is a new, unevaluated Lazy whose value is `g` of the source's value; the source is not evaluated |
| `LazyEval.Lazy.FlatMap` | include/marjoram/lazy.hpp:106-155 | the result is a new, unevaluated Lazy whose value is `g(a).get()` for the source's value `a`; the source is not evaluated |
| `LazyEval.Flatten` | include/marjoram/lazy.hpp:162-179 | the result is a new, unevaluated Lazy whose value is `LLa.get().get()`; nothing is computed |
| `LazyEval.AssignOwnValue` | include/marjoram/lazy.hpp:26-31 | `Ma = Ma.get()` leaves `Ma` evaluated with the same value |
| `LazyEval.GetTwice` | include/marjoram/lazy.hpp:43-52 | two `get`s return the same value, the one the Lazy stood for, and the computation has been called at most once |
| `LazyEval.MapLaws` | include/marjoram/lazy.hpp:65-83 | the Lazy `src.map(id)` has the value of `src`, and `src.map(f).map(g)` has the value of `src.map(g . f)` |
| `LazyEval.FlatMapLaws` | include/marjoram/lazy.hpp:106-129 | `src.map(g)` has the value of `src.flatMap(a => Lazy(g(a)))`, and `src.flatMap(a => Lazy(a))` has the value of `src` |
| `LazyEval.FlatMapOfValue` | include/marjoram/lazy.hpp:106-129 | `Lazy(a).flatMap(g)` has the value of the Lazy `g(a)` |
| `LazyEval.FlattenIsFlatMapIdentity` | include/marjoram/lazy.hpp:162-169 | `Flatten(LLa)` has the value of `LLa.flatMap` with the identity |

## Left out

- Move and copy accounting of payloads (the `NoCopy_t`/`Needy_t` construction counters of test/test_maybe.cxx): Dafny values have no ownership, so payloads are plain values.
- Iteration over a Maybe (`begin`/`end`, const-qualified references): exercised by test/test_maybe.cxx:95-148, but include/marjoram/maybe.hpp defines no `begin`/`end`; const-ness is a C++ type-level property.
- Compile-time machinery: the `static_assert`s, the XOR `enable_if` of Either's side-inferring constructor, the CRTP casts of `Monad`, `detail::curry`; the model uses the side the constructor selects whenever it compiles.
- `EitherImpl` (include/marjoram/eitherImpl.hpp) is not part of this model; its storage and destructor behaviour are abstracted to the `Either` datatype.
- include/marjoram/maybe0.hpp, include/marjoram/visitor.hpp, include/marjoram/season.hpp and the `Reader` of test/test_reader.cxx are not part of this model.
- `EitherMonad.FoldAppliesStoredSide`: does not state that the other function is not invoked, because Dafny functions have no observable calls.
- `MaybeMonad.FlatMapNothing`: does not state that `f` is not invoked, for the same reason.
- `MaybeMonad.Maybe.FlatMap`: does not state that `f` is not invoked on an empty Maybe, for the same reason.
- `EitherMonad.Either.Fold`: does not state that only one of the two functions is invoked, for the same reason.
- `EitherMonad.Either.FlatMap`: does not state that `fb` is not invoked on a left value, for the same reason; the contract states only that the result does not depend on `fb`.
- `EitherMonad.FlatMapLeft`: does not state that `fb` is not invoked, for the same reason.
- `MaybeMonad.Maybe.Get`, `MaybeMonad.Maybe.GetOrElse`, `EitherMonad.Either.Fold`, `LazyEval.Lazy.Get`: return or pass the stored value (and, for `getOrElse`, the caller's `dflt`) as a value, where the non-const C++ overloads return or pass a mutable reference to it (include/marjoram/maybe.hpp:119, 126; include/marjoram/either.hpp:141-150; include/marjoram/lazy.hpp:47). An update in place through that reference (`m.get() = x`, or `fa`/`fb` changing their argument) changes the Maybe, the Either, the Lazy's stored value or `dflt` in the source; the model does not capture such updates, so a Lazy changes state only through `Assign` and `Get`.
- `LazyEval.Lazy.Map`: the computation captures a snapshot of the source's storage instead of the source object by reference, so evaluating the result does not write the computed value back into the source, and a value assigned to the source later is not seen; the eventual value is the same as long as the source is not reassigned. In consequence a pending computation of the source is run again, once by each derived Lazy and once by the source's own `Get`, where the source runs it once in all. The lifetime caveat of capturing `this` is not modelled.
- `LazyEval.Lazy.FlatMap`: captures a snapshot of the source in the same way as `Map`, so the source's pending computation is likewise run once by each derived Lazy and once by the source's own `Get`.
- Lazy's defaulted copy constructor and copy assignment: member-wise copies of the storage; a copied Lazy is represented by its storage value.
- The forwarding constructor and the variadic `Just` with several arguments, or with one argument of another type that an `A` is constructed from: `A`'s constructors are not part of this model, so `FromArgs` and `JustFromArgs` take no argument or one `A`.
- `std::function` and `boost::optional` are stand-ins only: functions are Dafny total functions and the optional is the `Maybe` datatype.

## Findings

| source | as written | input that shows it | evidently intended | confidence | as-written member | corrected member |
|---|---|---|---|---|---|---|
| include/marjoram/maybe.hpp:151-157 | `Just<A>(args...)` returns `Maybe<A>(args...)`, and with no argument that constructor leaves the optional empty | `Just<int>()` is Nothing | as documented, a Maybe containing an `A` built from `args`, the value-initialised `A()` when there are none | medium, not executed | `MaybeMonad.JustFromArgs` with `MaybeMonad.JustFromNoArgsIsEmpty` | `MaybeMonad.JustFromArgsIntended` |

=== FILE: either.dfy ===
/** The Either monad of include/marjoram/either.hpp: a disjoint union of a
    left `A` or a right `B`. The left type stays fixed under `FlatMap`, so
    the monad is over the right value. The tagged storage `EitherImpl` is
    this datatype itself. */
module EitherMonad {
  import opened MaybeMonad

  /** `Left(a)` is the object built with the `LeftSide` tag, `Right(b)` the
      one built with the `RightSide` tag. */
  datatype Either<+A, +B> = Left(a: A) | Right(b: B) {

    /** True iff an `A` is stored. */
    predicate IsLeft()
      ensures IsLeft() != IsRight()
      ensures match this case Left(_) => IsLeft() case Right(_) => !IsLeft()
    {
      Left?
    }

    /** True iff a `B` is stored. */
    predicate IsRight()
      ensures match this case Right(_) => IsRight() case Left(_) => !IsRight()
    {
      Right?
    }

    /** The stored left value. */
    function AsLeft(): (v: A)
      requires IsLeft()
      ensures this == Left(v)
    {
      a
    }

    /** The stored right value. */
    function AsRight(): (v: B)
      requires IsRight()
      ensures this == Right(v)
    {
      b
    }

    /** Reduces to one value: `fb(b)` for a right value, `fa(a)` otherwise. */
    function Fold<C>(fa: A -> C, fb: B -> C): (r: C)
      ensures IsLeft() ==> r == fa(AsLeft())
      ensures IsRight() ==> r == fb(AsRight())
    {
      if IsRight() then fb(AsRight()) else fa(AsLeft())
    }

    /** Monadic bind on the right value; a left value is carried over
        unchanged into the new right type. */
    function FlatMap<C>(fb: B -> Either<A, C>): (r: Either<A, C>)
      ensures IsLeft() ==> r == Left(AsLeft())
      ensures IsRight() ==> r == fb(AsRight())
    {
      if IsRight() then fb(AsRight()) else Left(AsLeft())
    }

    /** Swaps the sides, keeping the stored value. */
    function Mirror(): (r: Either<B, A>)
      ensures r.IsLeft() <==> IsRight()
      ensures IsRight() ==> r.AsLeft() == AsRight()
      ensures IsLeft() ==> r.AsRight() == AsLeft()
    {
      if IsRight() then Left(AsRight()) else Right(AsLeft())
    }

    /** `Just(b)` for a right value, Nothing for a left one. */
    function ToMaybe(): (r: Maybe<B>)
      ensures r.IsJust() <==> IsRight()
      ensures IsRight() ==> r.Get() == AsRight()
    {
      if IsRight() then Just(AsRight()) else Nothing
    }
  }

  /** Exactly one side is set, and it is the side the tag selected. */
  lemma SidesExclusive<A, B>(e: Either<A, B>, a: A, b: B)
    ensures e.IsLeft() != e.IsRight()
    ensures Either<A, B>.Left(a).IsLeft() && !Either<A, B>.Left(a).IsRight() && Either<A, B>.Left(a).AsLeft() == a
    ensures Either<A, B>.Right(b).IsRight() && !Either<A, B>.Right(b).IsLeft() && Either<A, B>.Right(b).AsRight() == b
  {
  }

  /** `fold` applies exactly the function of the stored side. */
  lemma FoldAppliesStoredSide<A, B, C>(a: A, b: B, fa: A -> C, fb: B -> C)
    ensures Either<A, B>.Left(a).Fold(fa, fb) == fa(a)
    ensures Either<A, B>.Right(b).Fold(fa, fb) == fb(b)
  {
  }

  /** Folding with the two tag constructors rebuilds the value: `fold` is
      the complete eliminator of Either. */
  lemma FoldWithConstructors<A, B>(e: Either<A, B>)
    ensures e.Fold(x => Left(x), y => Right(y)) == e
  {
  }

  /** Bind on a right value is `fb(b)`. */
  lemma FlatMapRight<A, B, C>(b: B, fb: B -> Either<A, C>)
    ensures Either<A, B>.Right(b).FlatMap(fb) == fb(b)
  {
  }

  /** Bind on a left value keeps the same `A` and ignores `fb`. */
  lemma FlatMapLeft<A, B, C>(a: A, fb: B -> Either<A, C>)
    ensures Either<A, B>.Left(a).FlatMap(fb) == Left(a)
  {
  }

  /** Right identity of bind. */
  lemma FlatMapRightIdentity<A, B>(e: Either<A, B>)
    ensures e.FlatMap(y => Right(y)) == e
  {
  }

  /** Chained binds compose. */
  lemma FlatMapAssociative<A, B, C, D>(e: Either<A, B>, f: B -> Either<A, C>, g: C -> Either<A, D>)
    ensures e.FlatMap(f).FlatMap(g) == e.FlatMap(y => f(y).FlatMap(g))
  {
  }

  /** Mirroring twice gives back the original. */
  lemma MirrorInvolution<A, B>(e: Either<A, B>)
    ensures e.Mirror().Mirror() == e
  {
  }

  /** Folding a mirrored value is folding the original with the two
      functions swapped. */
  lemma FoldMirror<A, B, C>(e: Either<A, B>, fa: A -> C, fb: B -> C)
    ensures e.Mirror().Fold(fb, fa) == e.Fold(fa, fb)
  {
  }

  /** `toMaybe` is the fold that drops a left value and wraps a right one. */
  lemma ToMaybeIsFold<A, B>(e: Either<A, B>)
    ensures e.ToMaybe() == e.Fold(_ => Nothing, y => Just(y))
  {
  }
}

=== FILE: lazy.dfy ===
/** The lazy value of include/marjoram/lazy.hpp. A `Lazy<A>` stores either a
    pending computation of an `A` (left) or the computed `A` (right); the
    first `Get` runs the computation once and overwrites the storage with
    its result.

    A Lazy used as a value (the result of the function given to `FlatMap`,
    the inner Lazy of `Flatten`) is passed and captured by copy in the
    source, so here it is represented by its storage value `Storage<A>`. */
module LazyEval {
  import opened EitherMonad

  /** The storage `Either<std::function<A()>, A>`. */
  type Storage<A> = Either<() -> A, A>

  /** The value a storage yields: the computation's result if pending, the
      stored value otherwise. */
  function Force<A>(s: Storage<A>): (v: A)
    ensures s.IsLeft() ==> v == s.AsLeft()()
    ensures s.IsRight() ==> v == s.AsRight()
  {
    s.Fold((f: () -> A) => f(), (a: A) => a)
  }

  /** The computation of `map(g)`: `g` applied to the source's value. */
  function Composed<A, B>(s: Storage<A>, g: A -> B): () -> B {
    () => g(Force(s))
  }

  /** The computation of `flatMap(g)`: the value of the Lazy that `g`
      returns for the source's value. */
  function Bound<A, B>(s: Storage<A>, g: A -> Storage<B>): () -> B {
    () => Force(g(Force(s)))
  }

  /** The computation of `Flatten`: the value of the inner Lazy that the
      outer one yields. */
  function Flattened<A>(ss: Storage<Storage<A>>): () -> A {
    () => Force(Force(ss))
  }

  class Lazy<A> {
    var impl: Storage<A>
    /** How many times the computation installed last has been called. */
    ghost var calls: nat

    /** A pending computation has not been called yet, and this object's
        own `Get` calls its installed computation at most once. */
    ghost predicate Valid()
      reads this
    {
      calls <= 1 && (impl.IsLeft() ==> calls == 0)
    }

    /** `Lazy(std::function<A()> f)`: pending, `f` not called yet. */
    constructor FromThunk(f: () -> A)
      ensures Valid() && !IsEvaluated()
      ensures impl == Left(f) && calls == 0
      ensures Eventual() == f()
    {
      impl := Left(f);
      calls := 0;
    }

    /** `Lazy(const A& a)`: already evaluated to `a`. */
    constructor FromValue(a: A)
      ensures Valid() && IsEvaluated()
      ensures impl == Right(a) && calls == 0
    {
      impl := Right(a);
      calls := 0;
    }

    /** True iff the value has been computed (or assigned). */
    predicate IsEvaluated()
      reads this
      ensures IsEvaluated() <==> impl == Right(Eventual())
    {
      impl.IsRight()
    }

    /** The value `Get` returns, whether computed yet or not. */
    function Eventual(): A
      reads this
    {
      Force(impl)
    }

    /** `operator=(a)`: evaluated with value `a`; a pending computation is
        dropped without being called. */
    method Assign(a: A)
      requires Valid()
      modifies this
      ensures Valid() && IsEvaluated()
      ensures impl == Right(a) && Eventual() == a
      ensures calls == old(calls)
    {
      impl := Right(a);
    }

    /** `get()`: runs a pending computation once and stores its result,
        then returns the stored value. */
    method Get() returns (v: A)
      requires Valid()
      modifies this
      ensures Valid() && IsEvaluated()
      ensures v == old(Eventual())
      ensures impl == Right(v)
      ensures old(IsEvaluated()) ==> impl == old(impl) && calls == old(calls)
      ensures !old(IsEvaluated()) ==> calls == 1
    {
      if impl.IsLeft() {
        var f := impl.AsLeft();
        impl := Right(f());
        calls := calls + 1;
      }
      v := impl.AsRight();
    }

    /** `map(g)`: a new pending Lazy whose value is `g` of this one's;
        this one is not evaluated. */
    method Map<B>(g: A -> B) returns (r: Lazy<B>)
      requires Valid()
      ensures fresh(r) && r.Valid() && !r.IsEvaluated() && r.calls == 0
      ensures r.Eventual() == g(Eventual())
      ensures unchanged(this)
    {
      r := new Lazy.FromThunk(Composed(impl, g));
    }

    /** `flatMap(g)`: a new pending Lazy whose value is that of the Lazy
        `g` returns for this one's value; this one is not evaluated. */
    method FlatMap<B>(g: A -> Storage<B>) returns (r: Lazy<B>)
      requires Valid()
      ensures fresh(r) && r.Valid() && !r.IsEvaluated() && r.calls == 0
      ensures r.Eventual() == Force(g(Eventual()))
      ensures unchanged(this)
    {
      r := new Lazy.FromThunk(Bound(impl, g));
    }
  }

  /** `Flatten(LLa)`: a new pending Lazy whose value is
      `LLa.get().get()`; nothing is computed and `lla` is not changed. */
  method Flatten<A>(lla: Lazy<Storage<A>>) returns (r: Lazy<A>)
    requires lla.Valid()
    ensures fresh(r) && r.Valid() && !r.IsEvaluated() && r.calls == 0
    ensures r.Eventual() == Force(lla.Eventual())
    ensures unchanged(lla)
  {
    r := new Lazy.FromThunk(Flattened(lla.impl));
  }

  /** `Ma = Ma.get();` leaves the value unchanged and `Ma` evaluated. */
  method AssignOwnValue<A>(m: Lazy<A>)
    requires m.Valid()
    modifies m
    ensures m.Valid() && m.IsEvaluated()
    ensures m.Eventual() == old(m.Eventual())
  {
    var v := m.Get();
    m.Assign(v);
  }

  /** Repeated `get`s return the same value and call the computation at
      most once. */
  method GetTwice<A>(m: Lazy<A>) returns (first: A, second: A)
    requires m.Valid()
    modifies m
    ensures first == second == old(m.Eventual())
    ensures m.calls == if old(m.IsEvaluated()) then old(m.calls) else 1
  {
    first := m.Get();
    second := m.Get();
  }

  /** Functor laws of `map`, on the values the derived Lazy objects
      eventually yield: mapping with the identity keeps the value, and two
      `map`s in a row give what one `map` with the composition gives. */
  method MapLaws<A, B, C>(src: Lazy<A>, f: A -> B, g: B -> C)
    returns (same: Lazy<A>, twice: Lazy<C>, once: Lazy<C>)
    requires src.Valid()
    ensures same.Eventual() == src.Eventual()
    ensures twice.Eventual() == once.Eventual()
  {
    same := src.Map(x => x);
    var first := src.Map(f);
    twice := first.Map(g);
    once := src.Map(x => g(f(x)));
  }

  /** `map(g)` yields what `flatMap` with `a => Lazy(g(a))` yields, and
      `flatMap` with the unit constructor keeps the value. */
  method FlatMapLaws<A, B>(src: Lazy<A>, g: A -> B)
    returns (mapped: Lazy<B>, bound: Lazy<B>, same: Lazy<A>)
    requires src.Valid()
    ensures mapped.Eventual() == bound.Eventual()
    ensures same.Eventual() == src.Eventual()
  {
    mapped := src.Map(g);
    bound := src.FlatMap(x => Storage<B>.Right(g(x)));
    same := src.FlatMap(x => Storage<A>.Right(x));
  }

  /** Left identity of `flatMap`: binding an evaluated `Lazy(a)` yields the
      value of `g(a)`. */
  method FlatMapOfValue<A, B>(a: A, g: A -> Storage<B>) returns (r: Lazy<B>)
    ensures r.Eventual() == Force(g(a))
  {
    var src := new Lazy.FromValue(a);
    r := src.FlatMap(g);
  }

  /** `Flatten` yields what `flatMap` with the identity yields. */
  method FlattenIsFlatMapIdentity<A>(lla: Lazy<Storage<A>>) returns (flat: Lazy<A>, bound: Lazy<A>)
    requires lla.Valid()
    ensures flat.Eventual() == bound.Eventual()
  {
    flat := Flatten(lla);
    bound := lla.FlatMap(s => s);
  }
}

=== FILE: maybe.dfy ===
/** The Maybe monad of include/marjoram/maybe.hpp: an optional value that is
    either empty (`Nothing`) or holds exactly one `a` (`Just(a)`).
    The backing `boost::optional<A>` is this datatype itself. */
module MaybeMonad {

  /** `Nothing` is the empty object built from the `Nothing_t` token, and
      also what the forwarding constructor and the `Just<A>()` helper build
      when given no argument (`Maybe<int> m;`). `Just(a)` is the object
      built by the forwarding constructor or a `Just` helper given an `a`. */
  datatype Maybe<+A> = Nothing | Just(a: A) {

    /** True iff a value is held. */
    predicate IsJust()
      ensures IsJust() <==> this != Nothing
    {
      Just?
    }

    /** True iff no value is held. */
    predicate IsNothing()
      ensures IsNothing() <==> this == Nothing
    {
      !IsJust()
    }

    /** The held value. Undefined behaviour on an empty Maybe in the
        source, hence a precondition here. */
    function Get(): (v: A)
      requires IsJust()
      ensures this == Just(v)
    {
      a
    }

    /** The held value, or `dflt` when empty. Total. */
    function GetOrElse(dflt: A): (v: A)
      ensures this == Just(v) || (IsNothing() && v == dflt)
    {
      if IsJust() then Get() else dflt
    }

    /** Monadic bind: `f(a)` when a value is held, otherwise Nothing
        without calling `f`. */
    function FlatMap<B>(f: A -> Maybe<B>): (r: Maybe<B>)
      ensures IsNothing() ==> r == Nothing
      ensures IsJust() ==> r == f(Get())
    {
      if IsJust() then f(Get()) else Nothing
    }
  }

  /** The forwarding constructor `Maybe(Args&&... args)`, for no argument
      or one `A` to copy: the backing optional is built from `args`, so no
      argument leaves it empty and one argument is held. */
  function FromArgs<A>(args: seq<A>): (r: Maybe<A>)
    requires |args| <= 1
    ensures r.IsJust() <==> |args| == 1
    ensures |args| == 1 ==> r.Get() == args[0]
  {
    if |args| == 0 then Nothing else Just(args[0])
  }

  /** The variadic helper `Just<A>(args...)` as written: it forwards to the
      constructor, so with no argument it returns an empty Maybe although
      it is documented to return one containing an `A`. */
  function JustFromArgs<A>(args: seq<A>): (r: Maybe<A>)
    requires |args| <= 1
    ensures r.IsNothing() <==> |args| == 0
    ensures r == FromArgs(args)
  {
    FromArgs(args)
  }

  /** `Just<int>()` contains no `int`, against its documented promise. */
  lemma JustFromNoArgsIsEmpty()
    ensures JustFromArgs<int>([]).IsNothing()
    ensures !JustFromArgs<int>([]).IsJust()
  {
  }

  /** The helper as documented: it always contains an `A`, the
      value-initialised `valueInit` (`A()`) when given no argument. Dafny
      has no generic value-initialisation, so `A()` is a parameter. */
  function JustFromArgsIntended<A>(args: seq<A>, valueInit: A): (r: Maybe<A>)
    requires |args| <= 1
    ensures r.IsJust()
    ensures r.Get() == if |args| == 1 then args[0] else valueInit
  {
    FromArgs(if |args| == 1 then args else [valueInit])
  }

  /** `Just(a)` holds `a`. */
  lemma JustHoldsValue<A>(a: A)
    ensures Just(a).IsJust() && !Just(a).IsNothing()
    ensures Just(a).Get() == a
  {
  }

  /** The empty token converts to an empty Maybe of any type. */
  lemma NothingIsEmpty<A>()
    ensures Maybe<A>.Nothing.IsNothing() && !Maybe<A>.Nothing.IsJust()
  {
  }

  /** Exactly one of `IsJust` and `IsNothing` holds. */
  lemma JustXorNothing<A>(m: Maybe<A>)
    ensures m.IsNothing() <==> !m.IsJust()
  {
  }

  /** The default law of `getOrElse`. */
  lemma GetOrElseDefault<A>(m: Maybe<A>, dflt: A)
    ensures m.IsNothing() ==> m.GetOrElse(dflt) == dflt
    ensures m.IsJust() ==> m.GetOrElse(dflt) == m.Get()
  {
  }

  /** Bind short-circuits on an empty Maybe. */
  lemma FlatMapNothing<A, B>(f: A -> Maybe<B>)
    ensures Maybe<A>.Nothing.FlatMap(f) == Nothing
  {
  }

  /** Left identity: binding `Just(a)` gives `f(a)`, unwrapped once. */
  lemma FlatMapLeftIdentity<A, B>(a: A, f: A -> Maybe<B>)
    ensures Just(a).FlatMap(f) == f(a)
  {
  }

  /** Right identity: binding with the unit constructor changes nothing. */
  lemma FlatMapRightIdentity<A>(m: Maybe<A>)
    ensures m.FlatMap(x => Just(x)) == m
  {
  }

  /** Chained binds compose. */
  lemma FlatMapAssociative<A, B, C>(m: Maybe<A>, f: A -> Maybe<B>, g: B -> Maybe<C>)
    ensures m.FlatMap(f).FlatMap(g) == m.FlatMap(x => f(x).FlatMap(g))
  {
  }

  /** Once a chain of binds has become empty, after any prefix of the
      chain, every later bind keeps it empty. Stated for chains whose binds
      all have type `A -> Maybe<A>`; a chain that changes the element type
      at each step short-circuits by `FlatMapNothing` applied bind by
      bind. */
  lemma {:induction false} FlatMapChainShortCircuits<A>(m: Maybe<A>, fs: seq<A -> Maybe<A>>, k: nat)
    requires k <= |fs|
    requires FlatMapAll(m, fs[..k]).IsNothing()
    ensures FlatMapAll(m, fs).IsNothing()
  {
    if k == |fs| {
      assert fs[..k] == fs;
    } else {
      var init := fs[..|fs| - 1];
      assert init[..k] == fs[..k];
      FlatMapChainShortCircuits(m, init, k);
    }
  }

  /** `m.flatMap(fs[0]).flatMap(fs[1])...`, a chain of binds. */
  function FlatMapAll<A>(m: Maybe<A>, fs: seq<A -> Maybe<A>>): Maybe<A>
  {
    if |fs| == 0 then m else FlatMapAll(m, fs[..|fs| - 1]).FlatMap(fs[|fs| - 1])
  }

  function JustSquare(i: int): Maybe<int> {
    Just(i * i)
  }

  /** `Just(5).flatMap(sq).flatMap(sq)` holds 625. */
  lemma ChainedSquares()
    ensures Just(5).FlatMap(JustSquare).IsJust()
    ensures Just(5).FlatMap(JustSquare).Get() == 25
    ensures Just(5).FlatMap(JustSquare).FlatMap(JustSquare).Get() == 625
  {
  }

  /** A held 5 wins over the default -42; an empty Maybe yields -42. */
  lemma GetOrElseExample()
    ensures Just(5).GetOrElse(-42) == 5
    ensures Maybe<int>.Nothing.GetOrElse(-42) == -42
  {
  }
}

=== FILE: monad.dfy ===
/** The helpers of include/marjoram/monad.hpp. The C++ `Monad` base class is
    generic over the monad; Dafny has no higher-kinded types, so each helper
    is given here for the monads it is used with: `map` for Maybe and for
    Either (over its right value), `map2` and `sequence` for Maybe. */
module Monad {
  import opened MaybeMonad
  import opened EitherMonad

  /** `map` of a Maybe: bind with `a => Just(f(a))`. */
  function MaybeMap<A, B>(m: Maybe<A>, f: A -> B): (r: Maybe<B>)
    ensures r.IsJust() <==> m.IsJust()
    ensures r.IsJust() ==> r.Get() == f(m.Get())
  {
    m.FlatMap(a => Just(f(a)))
  }

  /** `map` of an Either: bind with `b => Right(f(b))`. The C++ unit
      `Either<A, C>(f(b))` selects the right side whenever it compiles. */
  function EitherMap<A, B, C>(e: Either<A, B>, f: B -> C): (r: Either<A, C>)
    ensures r.IsRight() <==> e.IsRight()
    ensures e.IsRight() ==> r.AsRight() == f(e.AsRight())
    ensures e.IsLeft() ==> r.AsLeft() == e.AsLeft()
  {
    e.FlatMap(b => Right(f(b)))
  }

  /** Functor identity law for Maybe. */
  lemma MaybeMapIdentity<A>(m: Maybe<A>)
    ensures MaybeMap(m, x => x) == m
  {
  }

  /** Functor composition law for Maybe. */
  lemma MaybeMapCompose<A, B, C>(m: Maybe<A>, f: A -> B, g: B -> C)
    ensures MaybeMap(MaybeMap(m, f), g) == MaybeMap(m, x => g(f(x)))
  {
  }

  /** Functor identity law for Either. */
  lemma EitherMapIdentity<A, B>(e: Either<A, B>)
    ensures EitherMap(e, y => y) == e
  {
  }

  /** Functor composition law for Either. */
  lemma EitherMapCompose<A, B, C, D>(e: Either<A, B>, f: B -> C, g: C -> D)
    ensures EitherMap(EitherMap(e, f), g) == EitherMap(e, y => g(f(y)))
  {
  }

  function Square(i: int): int {
    i * i
  }

  /** `Just(5).map(sq).map(sq)` holds 625. */
  lemma ChainedSquareMaps()
    ensures MaybeMap(Just(5), Square).Get() == 25
    ensures MaybeMap(MaybeMap(Just(5), Square), Square).Get() == 625
  {
  }

  /** `map2`: combines two Maybe values with `f`; empty if either is. */
  function Map2<A, B, C>(ma: Maybe<A>, mb: Maybe<B>, f: (A, B) -> C): (r: Maybe<C>)
    ensures r.IsJust() <==> ma.IsJust() && mb.IsJust()
    ensures r.IsJust() ==> r.Get() == f(ma.Get(), mb.Get())
  {
    ma.FlatMap(a => MaybeMap(mb, b => f(a, b)))
  }

  /** The step function of `sequence`: `push_front` onto the list. */
  function PushFront<A>(la: seq<A>, a: A): (r: seq<A>)
    ensures |r| == |la| + 1 && r[0] == a
    ensures forall i :: 0 <= i < |la| ==> r[i + 1] == la[i]
  {
    [a] + la
  }

  /** `sequence`: turns a container of Maybe values into a Maybe of the
      list of their values. The result is present iff every element is;
      as each value is pushed to the front, the list holds the values in
      reverse order of the container. */
  method Sequence<A>(cma: seq<Maybe<A>>) returns (r: Maybe<seq<A>>)
    ensures r.IsJust() <==> forall i :: 0 <= i < |cma| ==> cma[i].IsJust()
    ensures r.IsJust() ==> |r.Get()| == |cma|
    ensures r.IsJust() ==> forall i :: 0 <= i < |cma| ==> r.Get()[i] == cma[|cma| - 1 - i].Get()
  {
    r := Just([]);
    for k := 0 to |cma|
      invariant r.IsJust() <==> forall i :: 0 <= i < k ==> cma[i].IsJust()
      invariant r.IsJust() ==> |r.Get()| == k
      invariant r.IsJust() ==> forall i :: 0 <= i < k ==> r.Get()[i] == cma[k - 1 - i].Get()
    {
      r := Map2(r, cma[k], PushFront);
    }
  }
}
